=== FILE: README.md ===
# station_meteo: the data path behind the weather graphs

This project models the part of station_meteo that decides which data a graph
shows. A graph tab names a dataset. Its container turns the visible width and
the picked dates into a request: an item cap and a list of date filters. The
`DataService` singleton answers the request. It serves the answer from its
cache, or it builds the dataset's provider, fetches the raw records, applies
the filters in order, reduces the result with `simpleInterpolation` or a plain
prefix, and caches what it returns. A CSV provider configured with a
transform turns raw text records into dated samples with `bigEndian`
(`YYYYMMDD`) or `iso8601` (`YYYY-MM-DD`). `DummyProvider` applies no
transform: its fixed fixture of five records reaches the resolver as raw
rows.

The model is pure and functional. Its modules are:

- `Calendar`: calendar dates, plus the basic and extended date texts with their parse/format round trips.
- `Transforms`: `bigEndian` and `iso8601`.
- `DummyProvider`: the fixture.
- `Interpolation`: `simpleInterpolation`.
- `DataService`: the filter chain, the cache key and the resolver. The resolver maps a cache to a new cache and an answer.
- `FixtureResolution`: the resolver run over the fixture.
- `GraphContainer`: the resize policy, the filter list built from the dates, the date guard, the request and the chart series.
- `GraphWidget`: the choice of tab at start-up and the remembering of a clicked tab.
- `Sequences` and `Options`: shared helpers.

The datasource table and the providers are parameters of the resolver.
`fetch(name, params)` stands for constructing provider `name` and awaiting its
records. A failure to construct or to fetch is a separate outcome.

Two points where the code and its documented intent differ. In both, the
model follows the code:

- A datasource entry can name an interpolation strategy that is not registered.
  The service then calls `undefined`. The `try` around that call swallows the
  error, so the filtered data comes back **untruncated**, not cut down to the cap.
- `simpleInterpolation` with `maxItem == 0` has stride `Infinity`. Only
  index 0 satisfies `index % Infinity == 0`, so a non-empty input collapses
  to its first element. The service never passes 0 to it.

## Model

| member | source | states |
|---|---|---|
| Interpolation.CeilDiv | src/services/InterpolationMethod/simpleInterpolation.js:24 | the stride is the least `c` with `c * maxItem >= length` |
| Interpolation.KeepMultiples | src/services/InterpolationMethod/simpleInterpolation.js:26-28 | filtering by `index % s == 0` keeps exactly `vals[0], vals[s], vals[2s], ...`, in order, `ceil(n / s)` of them |
| Interpolation.SimpleInterpolation | src/services/InterpolationMethod/simpleInterpolation.js:17-29 | an input no longer than the cap comes back unchanged; a longer one keeps every `ceil(n / cap)`-th element from index 0; a cap of 0 keeps only the first element |
| Interpolation.SimpleInterpolationIsSubsequence | src/services/InterpolationMethod/simpleInterpolation.js:20-28 | the result is drawn from the input in order and starts with the input's first element |
| Interpolation.SimpleInterpolationBounded | src/services/InterpolationMethod/simpleInterpolation.js:5-7 | for a positive cap the result has at most `maxItem` elements and at most as many as the input |
| Interpolation.HundredCappedAtTwenty | src/services/InterpolationMethod/simpleInterpolation.js:9-10 | 100 elements capped at 20 keep every fifth element, 20 in all |
| Calendar.DaysInMonth | src/services/TransformMethod/bigEndian.js:15 | a month has 28 to 31 days, and February has 29 exactly in leap years |
| Calendar.ParseFormatBasic | src/services/TransformMethod/bigEndian.js:15 | every valid date written as `YYYYMMDD` is read back as the same date |
| Calendar.FormatParseBasic | src/services/TransformMethod/bigEndian.js:15 | every text that parses as `YYYYMMDD` is the writing of the date it parses to |
| Calendar.ParseFormatExtended | src/services/TransformMethod/iso8601.js:14 | every valid date written as `YYYY-MM-DD` is read back as the same date |
| Calendar.FormatParseExtended | src/services/TransformMethod/iso8601.js:14 | every text that parses as `YYYY-MM-DD` is the writing of the date it parses to |
| Calendar.FormatExtendedInjective | src/components/GraphContainer.jsx:152-158 | different valid dates never render to the same text, which keeps filter ids unique |
| Calendar.ExtendedIsBasicWithoutDashes | src/services/TransformMethod/iso8601.js:14 | the extended parse of a dashed text equals the basic parse of the text without its dashes |
| Calendar.BasicIsExtendedWithoutDashes | src/services/TransformMethod/bigEndian.js:15 | the `YYYYMMDD` text of a valid date is its `YYYY-MM-DD` text with the dashes removed |
| Transforms.BigEndian | src/services/TransformMethod/bigEndian.js:12-18 | succeeds exactly on valid `YYYYMMDD` dates from year 1 on, passes the value through, and its date formats back to the input text |
| Transforms.BigEndianReadsEveryDate | src/services/TransformMethod/bigEndian.js:15 | every valid date in basic form is decoded to itself, whatever the other columns, except year 0000, which is refused |
| Transforms.Iso8601 | src/services/TransformMethod/iso8601.js:12-16 | succeeds exactly on valid `YYYY-MM-DD` dates, passes the value through, and its date formats back to the input text |
| Transforms.Iso8601ReadsEveryDate | src/services/TransformMethod/iso8601.js:14 | every valid date in extended form is decoded to itself |
| Transforms.Iso8601IsBigEndianWithoutDashes | src/services/TransformMethod/iso8601.js:14 | on a dashed text, `bigEndian` on the text without dashes decodes what `iso8601` decodes, except that it refuses year 0000 |
| Transforms.YearZeroOnlyExtended | src/services/TransformMethod/bigEndian.js:15 | `0000-01-01` is read by `iso8601` while `00000101` is refused by `bigEndian` |
| Transforms.BigEndianExample | src/services/Provider/DummyProvider.js:13 | the first fixture record decodes to 1 January 1970 with value "4" |
| Transforms.Iso8601Example | src/services/TransformMethod/iso8601.js:14 | "1970-02-01" decodes to 1 February 1970 |
| DummyProvider.DataSet | src/services/Provider/DummyProvider.js:11-19 | whatever the parameters: five records, the first of January to May 1970 in basic form, values 4, 0, 0, 3, 5, no other column |
| DummyProvider.FixtureDecodes | src/services/Provider/DummyProvider.js:12-18 | `bigEndian` reads record `i` as the first of month `i + 1` of 1970, and the dates strictly increase |
| DataService.FilterStep | src/services/DataService.js:104 | one `Array.filter` fails exactly when the predicate throws on some element; otherwise it keeps exactly the elements the predicate keeps |
| DataService.ApplyFilters | src/services/DataService.js:102-108 | no filters leave the data as it is; otherwise the result holds no more records than the data, each taken from it |
| DataService.ApplyFiltersIsSubsequence | src/services/DataService.js:102-108 | filtering only removes records and never reorders them |
| DataService.ApplyFiltersStopsAtRaise | src/services/DataService.js:102-108 | when filter `j` throws, the result is what the filters before it produced and later filters are skipped |
| DataService.ApplyFiltersSelects | src/services/DataService.js:103-105 | filters that never throw keep exactly the records every filter keeps, in their original order |
| DataService.HashKey | src/services/DataService.js:143-149 | the key records the dataset id and the cap, and a request without filters has empty filter text |
| DataService.ConcatIds | src/services/DataService.js:147 | no filters give the empty text; otherwise the text ends with the last filter's id |
| DataService.ConcatIdsStartsWithFirst | src/services/DataService.js:147 | the text of a non-empty filter list starts with the first filter's id |
| DataService.ConcatIdsAppend | src/services/DataService.js:147 | the id text of two filter lists joined is the two id texts joined |
| DataService.HashKeyCollision | src/services/DataService.js:143-149 | two requests share a key exactly when id, cap and concatenated filter ids agree |
| DataService.HashKeyIgnoresPredicates | src/services/DataService.js:144-148 | filter lists with the same ids in the same order share a key, whatever their predicates |
| DataService.SplitIdsShareKey | src/services/DataService.js:147 | filters named "ab","c" and "a","bc" collide in the cache |
| DataService.SwapChangesKeyIffText | src/services/DataService.js:147 | swapping two filters changes the key exactly when it changes the concatenated ids |
| DataService.Reduce | src/services/DataService.js:111-121 | cap 0 keeps everything; with no interpolation a non-zero cap keeps a prefix of length `min(cap, n)`; a registered `simpleInterpolation` gives `simpleInterpolation(data, maxItem)`; an unregistered strategy leaves the data as it is |
| DataService.ReduceIsSubsequence | src/services/DataService.js:111-121 | reduction only removes records and never reorders them, so it never lengthens the data |
| DataService.ReduceBounded | src/services/DataService.js:111-121 | with a non-zero cap and no strategy or a registered one, at most `maxItem` records remain |
| DataService.DataSet | src/services/DataService.js:75-134 | a hit is answered from the cache alone; an unknown dataset fails and leaves the cache unchanged; a name inherited from `Object.prototype` passes the guard but finds no provider, so it gets no records and no entry; a provider that cannot be built or fails yields no records and no entry; only the request's own key can change, and then it holds the answer |
| DataService.DataSetMiss | src/services/DataService.js:95-126 | on a miss the answer is the raw records filtered in order then reduced, it is cached under the request's key, and it is drawn from the raw records in order, never longer than they are |
| DataService.CacheHitIgnoresSources | src/services/DataService.js:84-87 | a cached answer does not depend on the datasource table or on the providers |
| DataService.DataSetIdempotent | src/services/DataService.js:79-133 | after a request its key is cached exactly when it was a hit or its provider delivered records; then repeating it, under any table and providers, gives the same answer and cache; after a provider failure the cache is as before, so a repeat asks the provider again |
| DataService.EmptyCacheRespectsCaps | src/services/DataService.js:43 | the empty cache the service starts with respects every cap |
| DataService.DataSetRespectsCaps | src/services/DataService.js:111-124 | every request keeps each entry cached for a non-zero cap, of a dataset with a registered strategy or none, within that cap |
| DataService.DataSetBounded | src/services/DataService.js:111-124 | with a non-zero cap and a registered strategy or none, the answer from any cache the service can reach never exceeds the cap |
| FixtureResolution.FixtureInFull | src/services/DataService.js:119-126 | the fixture with cap 0 and no filters returns all five records and caches them under its key |
| FixtureResolution.FixtureTruncated | src/services/DataService.js:119-121 | without an interpolation, cap 2 returns the first two fixture records |
| FixtureResolution.FixtureDecimated | src/services/DataService.js:111-113 | through `simpleInterpolation`, cap 2 returns the January and April records (stride 3) |
| FixtureResolution.NonexistentDataset | src/services/DataService.js:90-92 | a dataset id missing from the table fails |
| FixtureResolution.InheritedNameYieldsNothing | src/services/DataService.js:90-96 | the id `toString` is found on the table's prototype, so it does not fail; building its provider throws, and the answer is no records with nothing cached |
| GraphContainer.OnResize | src/components/GraphContainer.jsx:199-222 | a refresh is requested exactly when the width changed and exceeds the cap, which then becomes the width; the width is always recorded; `width <= size` is preserved |
| GraphContainer.OnEntries | src/components/GraphContainer.jsx:195-226 | one callback records the first entry's width; it refreshes exactly when that width differs from the recorded one and exceeds the cap, which then becomes that width; otherwise the cap is kept |
| GraphContainer.OnlyFirstEntryCounts | src/components/GraphContainer.jsx:197-225 | entries after the first in a callback are never looked at |
| GraphContainer.ReplayKeepsPolicy | src/components/GraphContainer.jsx:195-226 | over any run of widths the cap never drops, ends as the widest width seen, stays at least the width, and refreshes never outnumber the cap's growth |
| GraphContainer.BuildFilters | src/components/GraphContainer.jsx:153-159 | a start filter then an end filter, each present exactly when its date is set, with ids naming the date; none throws, and together they keep exactly the samples inside the range, ends included |
| GraphContainer.BuildFiltersSelectRange | src/components/GraphContainer.jsx:153-159 | the service applying these filters keeps exactly the in-range samples, in order |
| GraphContainer.FilterIdsText | src/components/GraphContainer.jsx:155-158 | the key's filter text is the start id followed by the end id, each present when its date is set |
| GraphContainer.FilterIdsRoundTrip | src/components/GraphContainer.jsx:152-158 | the range can be read back from the filter text |
| GraphContainer.FilterIdsDetermineRange | src/components/GraphContainer.jsx:152-158 | different date ranges never share a cache key |
| GraphContainer.FebruaryToApril | src/components/GraphContainer.jsx:153-159 | samples for January to May 1970, filtered from 1 February to 1 April, keep February, March and April |
| GraphContainer.DateSelected | src/components/GraphContainer.jsx:173-183 | the picked dates are recorded, and a refresh is requested exactly when they differ from the current ones |
| GraphContainer.Series | src/components/GraphContainer.jsx:116-121 | one point per sample, in order, `x` the date and `y` the value |
| GraphContainer.SeriesRoundTrip | src/components/GraphContainer.jsx:116-121 | the series loses and reorders nothing: the samples can be read back from it |
| GraphContainer.RenderGraph | src/components/GraphContainer.jsx:90-135 | a cap of 0 asks nothing and changes nothing; otherwise the service is asked for `size` items, a failure leaves the loading view, and records become a chart holding exactly them |
| GraphContainer.NoRequestBeforeFirstResize | src/components/GraphContainer.jsx:93-96 | before any width is observed, picking dates never reaches the service |
| GraphWidget.FindTab | src/components/GraphWidget.jsx:28-33 | the search succeeds exactly when some configured tab carries the stored key, and returns that key |
| GraphWidget.Selected | src/components/GraphWidget.jsx:23-37 | the shown tab is always configured: the remembered key when a tab carries it, the first tab otherwise; an empty configuration fails |
| GraphWidget.ChangeTab | src/components/GraphWidget.jsx:46 | the clicked key is stored under `graphtab` and every other storage entry stays as it was |
| GraphWidget.ChangeTabThenSelected | src/components/GraphWidget.jsx:23-46 | after a click on a configured tab that tab is shown at the next start; an unconfigured key falls back to the first tab |
| GraphWidget.SelectedIsStable | src/components/GraphWidget.jsx:23-46 | remembering the tab that is shown does not change which tab is shown |
| GraphWidget.GraphTabsStartUp | src/assets/graph-data.js:13-47 | with nothing remembered, or any key no configured tab carries, the rain tab opens; a remembered temperature tab reopens |

## Left out

- Asynchrony, the singleton, timers and observers are left out. `async`/`await`, `getInstance`, the 250 ms debounce in `poolData`, `ResizeObserver` registration and disconnection, and React state are outside the model. Each callback is one pure step, and a debounced request is the request itself.
- The md5 digest of `object-hash` is taken to be injective. The cache key is the triple it digests.
- Console logging has no effect on the result and is omitted.
- `CsvProvider` and `datasource.json` are not part of this model. The datasource table and the providers are parameters of the resolver. A provider name the service has not registered is answered with no records and no fetch at all; only a fetch that rejects becomes `FetchFailed`, which is likewise answered with no records and caches nothing.
- Registry lookups by provider or strategy name ignore inherited object properties such as `toString`. The registries are finite sets of names. For a provider name this changes nothing, since an inherited one also ends in no records. A strategy name such as `toString` would run the inherited function in the program; here it counts as unregistered. Dataset ids are different: the table is looked up with its inherited `Object.prototype` names, as the program does.
- `Transforms.BigEndian`: reads exactly eight digits and gives `None` for anything else. date-fns is more lenient: its numeric fields accept fewer digits (`1970011` reads as 1 January 1970), and it ignores trailing whitespace. Those inputs are not modelled. On texts it rejects, date-fns gives an Invalid Date, which the model writes as `None`.
- `Transforms.Iso8601`: reads exactly `YYYY-MM-DD` and gives `None` for anything else. The lenient, non-strict parsing of `moment` is not modelled.
- `BigEndian` and `Iso8601` model years up to 9999 only, the range four digits can write. `BigEndian` also refuses year 0000, as the `yyyy` pattern of date-fns does; `Iso8601` accepts it.
- Dates are calendar days. Time of day, time zones and the `Date` object's millisecond value are not modelled.
- `GraphContainer.BuildFilters`: each predicate's date is fixed when the filter is built. In the program the predicates read the shared `dates.current` ref only when `Array.filter` runs, which happens after the provider's `await`. A date picked during that fetch is therefore filtered with the new dates but cached under the key of the old ids. The `disabled` prop of the picker only changes its styling, so the picker stays usable while loading. This cache-key mix-up is not modelled.
- `GraphContainer.BuildFilters`: filter ids write dates as `YYYY-MM-DD`. The program writes them with `Date.prototype.toString`, whose text depends on the time zone. Both writings are injective on days, which is what the cache key needs. The range also requires both picked dates to be valid dates of years 0 to 9999, the range `YYYY` can write; the program accepts any `Date`.
- `GraphContainer.DateSelected`: compares dates by value. The program compares `Date` objects by reference with `==`, so a picker that hands over a new object for the same day requests a refresh there but not here.
- `GraphContainer.OnResize`: widths are whole numbers. `contentRect.width` can be fractional.
- `GraphContainer.RenderGraph`: the loading view that `renderGraph` shows while a request is pending is not a separate state. Only the view after the request settles is modelled.
- Rendering is left out: the merge of `graph-config.json` with the tab's config, the chart options, the series name, `DatePicker`, the loading indicator and the JSX layout.
- The value formatters in `graph-data.js` are left out, as are the tab labels and descriptions. Only the tab keys and datasets are kept.

=== FILE: calendar.dfy ===
/** Calendar dates as `(year, month, day)` triples and their two textual forms
    from section 4.1.2.2 of ISO 8601:2004: the basic complete date `YYYYMMDD`
    and the extended complete date `YYYY-MM-DD` (the `full-date` of section
    5.6 of RFC 3339). Day validity follows section 5.7 of RFC 3339. */
module Calendar {
  import opened Options

  datatype Date = Date(year: nat, month: nat, day: nat)

  /** Gregorian leap year, as in the table of section 5.7 of RFC 3339. */
  predicate IsLeapYear(y: nat) {
    y % 4 == 0 && (y % 100 != 0 || y % 400 == 0)
  }

  function DaysInMonth(y: nat, m: nat): (n: nat)
    requires 1 <= m <= 12
    ensures 28 <= n <= 31
    ensures m == 2 ==> (n == 29 <==> IsLeapYear(y))
  {
    if m == 2 then (if IsLeapYear(y) then 29 else 28)
    else if m == 4 || m == 6 || m == 9 || m == 11 then 30
    else 31
  }

  /** A date a four-digit year can write and that exists on the calendar. */
  predicate ValidDate(d: Date) {
    && d.year <= 9999
    && 1 <= d.month <= 12
    && 1 <= d.day <= DaysInMonth(d.year, d.month)
  }

  /** Chronological order of calendar days. */
  predicate DateLe(a: Date, b: Date) {
    || a.year < b.year
    || (a.year == b.year && a.month < b.month)
    || (a.year == b.year && a.month == b.month && a.day <= b.day)
  }

  predicate DateLt(a: Date, b: Date) {
    DateLe(a, b) && a != b
  }

  // ---------------------------------------------------------------------
  // Fixed-width decimal fields

  predicate IsDigit(c: char) {
    '0' <= c <= '9'
  }

  predicate AllDigits(s: string) {
    forall i :: 0 <= i < |s| ==> IsDigit(s[i])
  }

  function Pow10(n: nat): (p: nat)
    ensures p >= 1
  {
    if n == 0 then 1 else 10 * Pow10(n - 1)
  }

  function DigitChar(n: nat): (c: char)
    requires n < 10
    ensures IsDigit(c)
  {
    ('0' as int + n) as char
  }

  /** The number a string of decimal digits denotes. */
  function DecimalValue(s: string): (v: nat)
    requires AllDigits(s)
    ensures v < Pow10(|s|)
    decreases |s|
  {
    if |s| == 0 then 0
    else DecimalValue(s[..|s| - 1]) * 10 + (s[|s| - 1] as int - '0' as int)
  }

  /** `n` written with exactly `width` decimal digits, zero-padded on the left. */
  function Decimal(n: nat, width: nat): (s: string)
    requires n < Pow10(width)
    ensures |s| == width && AllDigits(s)
    decreases width
  {
    if width == 0 then []
    else Decimal(n / 10, width - 1) + [DigitChar(n % 10)]
  }

  lemma {:induction false} DecimalValueOfDecimal(n: nat, width: nat)
    requires n < Pow10(width)
    ensures DecimalValue(Decimal(n, width)) == n
    decreases width
  {
    if width > 0 {
      var s := Decimal(n, width);
      DecimalValueOfDecimal(n / 10, width - 1);
      assert s[..|s| - 1] == Decimal(n / 10, width - 1);
    }
  }

  lemma {:induction false} DecimalOfDecimalValue(s: string)
    requires AllDigits(s)
    ensures Decimal(DecimalValue(s), |s|) == s
    decreases |s|
  {
    if |s| > 0 {
      var front := s[..|s| - 1];
      DecimalOfDecimalValue(front);
      var v := DecimalValue(s);
      var d := s[|s| - 1] as int - '0' as int;
      assert v / 10 == DecimalValue(front) && v % 10 == d;
      assert s == front + [s[|s| - 1]];
    }
  }

  /** Two-digit text of a one-digit number, as months and days below 10 are written. */
  lemma DecimalTwoDigits(n: nat)
    requires n < 10
    ensures Decimal(n, 2) == ['0', DigitChar(n)]
  {
    assert n / 10 == 0 && n % 10 == n;
    assert Decimal(0, 1) == Decimal(0, 0) + [DigitChar(0)] == ['0'];
    assert Decimal(n, 2) == Decimal(0, 1) + [DigitChar(n)];
  }

  lemma DecimalYearZero()
    ensures Decimal(0, 4) == "0000"
  {
    assert Decimal(0, 1) == Decimal(0, 0) + [DigitChar(0)] == "0";
    assert Decimal(0, 2) == Decimal(0, 1) + [DigitChar(0)] == "00";
    assert Decimal(0, 3) == Decimal(0, 2) + [DigitChar(0)] == "000";
    assert Decimal(0, 4) == Decimal(0, 3) + [DigitChar(0)] == "0000";
  }

  lemma DecimalYear1970()
    ensures Decimal(1970, 4) == "1970"
  {
    assert Decimal(1, 1) == Decimal(0, 0) + [DigitChar(1)] == "1";
    assert Decimal(19, 2) == Decimal(1, 1) + [DigitChar(9)] == "19";
    assert Decimal(197, 3) == Decimal(19, 2) + [DigitChar(7)] == "197";
    assert Decimal(1970, 4) == Decimal(197, 3) + [DigitChar(0)] == "1970";
  }

  // ---------------------------------------------------------------------
  // Basic format YYYYMMDD

  function FormatBasic(d: Date): (s: string)
    requires ValidDate(d)
    ensures |s| == 8 && AllDigits(s)
  {
    Decimal(d.year, 4) + Decimal(d.month, 2) + Decimal(d.day, 2)
  }

  /** Reads `YYYYMMDD`: year from characters [0,4), month from [4,6), day from [6,8).
      Anything else, or a date that does not exist, reads as `None`. */
  function ParseBasic(s: string): (r: Option<Date>)
    ensures r.Some? ==> ValidDate(r.value)
  {
    if |s| == 8 && AllDigits(s) then
      var d := Date(DecimalValue(s[..4]), DecimalValue(s[4..6]), DecimalValue(s[6..]));
      if ValidDate(d) then Some(d) else None
    else None
  }

  /** Formatting a valid date and reading it back gives the date. */
  lemma ParseFormatBasic(d: Date)
    requires ValidDate(d)
    ensures ParseBasic(FormatBasic(d)) == Some(d)
  {
    var s := FormatBasic(d);
    assert s[..4] == Decimal(d.year, 4);
    assert s[4..6] == Decimal(d.month, 2);
    assert s[6..] == Decimal(d.day, 2);
    DecimalValueOfDecimal(d.year, 4);
    DecimalValueOfDecimal(d.month, 2);
    DecimalValueOfDecimal(d.day, 2);
  }

  /** A string that reads as a date is exactly that date's text. */
  lemma FormatParseBasic(s: string)
    requires ParseBasic(s).Some?
    ensures FormatBasic(ParseBasic(s).value) == s
  {
    DecimalOfDecimalValue(s[..4]);
    DecimalOfDecimalValue(s[4..6]);
    DecimalOfDecimalValue(s[6..]);
    assert s == s[..4] + s[4..6] + s[6..];
  }

  // ---------------------------------------------------------------------
  // Extended format YYYY-MM-DD

  function FormatExtended(d: Date): (s: string)
    requires ValidDate(d)
    ensures |s| == 10 && s[4] == '-' && s[7] == '-'
  {
    Decimal(d.year, 4) + "-" + Decimal(d.month, 2) + "-" + Decimal(d.day, 2)
  }

  /** Reads `YYYY-MM-DD`: year from [0,4), month from [5,7), day from [8,10),
      with `-` at positions 4 and 7. Anything else reads as `None`. */
  function ParseExtended(s: string): (r: Option<Date>)
    ensures r.Some? ==> ValidDate(r.value)
  {
    if |s| == 10 && s[4] == '-' && s[7] == '-'
       && AllDigits(s[..4]) && AllDigits(s[5..7]) && AllDigits(s[8..]) then
      var d := Date(DecimalValue(s[..4]), DecimalValue(s[5..7]), DecimalValue(s[8..]));
      if ValidDate(d) then Some(d) else None
    else None
  }

  lemma ParseFormatExtended(d: Date)
    requires ValidDate(d)
    ensures ParseExtended(FormatExtended(d)) == Some(d)
  {
    var s := FormatExtended(d);
    assert s[..4] == Decimal(d.year, 4);
    assert s[5..7] == Decimal(d.month, 2);
    assert s[8..] == Decimal(d.day, 2);
    DecimalValueOfDecimal(d.year, 4);
    DecimalValueOfDecimal(d.month, 2);
    DecimalValueOfDecimal(d.day, 2);
  }

  lemma FormatParseExtended(s: string)
    requires ParseExtended(s).Some?
    ensures FormatExtended(ParseExtended(s).value) == s
  {
    DecimalOfDecimalValue(s[..4]);
    DecimalOfDecimalValue(s[5..7]);
    DecimalOfDecimalValue(s[8..]);
    assert s == s[..4] + "-" + s[5..7] + "-" + s[8..];
  }

  /** Two valid dates with the same extended text are the same date. */
  lemma FormatExtendedInjective(a: Date, b: Date)
    requires ValidDate(a) && ValidDate(b)
    requires FormatExtended(a) == FormatExtended(b)
    ensures a == b
  {
    ParseFormatExtended(a);
    ParseFormatExtended(b);
  }

  /** The extended form reads as the basic form with its two dashes removed. */
  lemma ExtendedIsBasicWithoutDashes(s: string)
    requires |s| == 10 && s[4] == '-' && s[7] == '-'
    ensures ParseExtended(s) == ParseBasic(s[..4] + s[5..7] + s[8..])
  {
    var b := s[..4] + s[5..7] + s[8..];
    assert b[..4] == s[..4] && b[4..6] == s[5..7] && b[6..] == s[8..];
    assert AllDigits(b) <==> AllDigits(s[..4]) && AllDigits(s[5..7]) && AllDigits(s[8..]) by {
      if AllDigits(s[..4]) && AllDigits(s[5..7]) && AllDigits(s[8..]) {
        forall i | 0 <= i < |b| ensures IsDigit(b[i]) {
          if i < 4 { assert b[i] == s[..4][i]; }
          else if i < 6 { assert b[i] == s[5..7][i - 4]; }
          else { assert b[i] == s[8..][i - 6]; }
        }
      }
    }
  }

  /** The basic and extended texts of one date carry the same digits. */
  lemma BasicIsExtendedWithoutDashes(d: Date)
    requires ValidDate(d)
    ensures var e := FormatExtended(d); FormatBasic(d) == e[..4] + e[5..7] + e[8..]
  {
    var e := FormatExtended(d);
    assert e[..4] == Decimal(d.year, 4);
    assert e[5..7] == Decimal(d.month, 2);
    assert e[8..] == Decimal(d.day, 2);
  }
}

=== FILE: data_service.dfy ===
/** `DataService`: the cache-first resolver behind every graph. A request
    names a dataset, an item cap (`0` for all) and an ordered list of filters;
    the answer is served from the cache, or fetched from the dataset's
    provider, filtered in order, reduced, and stored. The service's state is
    its cache; the datasource table and the providers are read-only inputs. */
module DataService {
  import opened Options
  import opened Sequences
  import opened Interpolation

  // ---------------------------------------------------------------------
  // Filters

  /** What a filter's predicate does with one record: `Raise` is a predicate
      that throws. */
  datatype Verdict = Keep | Drop | Raise

  /** A named predicate; only `id` takes part in the cache key. */
  datatype Filter<!R> = Filter(id: string, fn: R -> Verdict)

  /** `data.filter(fn)`, which throws as soon as the predicate throws on any
      element: `None` then, and otherwise the elements the predicate keeps. */
  function FilterStep<R>(fn: R -> Verdict, data: seq<R>): (r: Option<seq<R>>)
    ensures r.None? <==> exists i :: 0 <= i < |data| && fn(data[i]) == Raise
    ensures r.Some? ==> forall i :: 0 <= i < |r.value| ==> r.value[i] in data && fn(r.value[i]) == Keep
    ensures r.Some? ==> forall i :: 0 <= i < |data| && fn(data[i]) == Keep ==> data[i] in r.value
  {
    if exists i :: 0 <= i < |data| && fn(data[i]) == Raise then None
    else Some(Select(x => fn(x) == Keep, data))
  }

  /** The filters applied one after another in array order. A filter that
      throws abandons filtering: the result of the earlier filters stands and
      the later filters are skipped. */
  function ApplyFilters<R>(data: seq<R>, filters: seq<Filter<R>>): (r: seq<R>)
    ensures |filters| == 0 ==> r == data
    ensures |r| <= |data|
    ensures forall i :: 0 <= i < |r| ==> r[i] in data
    decreases |filters|
  {
    if |filters| == 0 then data
    else
      match FilterStep(filters[0].fn, data)
      case None => data
      case Some(kept) => ApplyFilters(kept, filters[1..])
  }

  lemma {:induction false} ApplyFiltersIsSubsequence<R>(data: seq<R>, filters: seq<Filter<R>>)
    ensures IsSubsequence(ApplyFilters(data, filters), data)
    decreases |filters|
  {
    if |filters| == 0 {
      SubsequenceReflexive(data);
    } else {
      match FilterStep(filters[0].fn, data)
      case None =>
        SubsequenceReflexive(data);
      case Some(kept) =>
        ApplyFiltersIsSubsequence(kept, filters[1..]);
        SelectIsSubsequence(x => filters[0].fn(x) == Keep, data);
        SubsequenceTransitive(ApplyFilters(kept, filters[1..]), kept, data);
    }
  }

  /** When filter `j` throws on what the filters before it produced, the
      result is what the filters before it produced. */
  lemma {:induction false} ApplyFiltersStopsAtRaise<R>(data: seq<R>, filters: seq<Filter<R>>, j: nat)
    requires j < |filters|
    requires FilterStep(filters[j].fn, ApplyFilters(data, filters[..j])).None?
    ensures ApplyFilters(data, filters) == ApplyFilters(data, filters[..j])
    decreases j
  {
    if j > 0 {
      match FilterStep(filters[0].fn, data)
      case None =>
      case Some(kept) =>
        assert filters[..j][1..] == filters[1..][..j - 1];
        ApplyFiltersStopsAtRaise(kept, filters[1..], j - 1);
    }
  }

  /** Every filter keeps `x`. */
  predicate AllKeep<R>(filters: seq<Filter<R>>, x: R) {
    forall i :: 0 <= i < |filters| ==> filters[i].fn(x) == Keep
  }

  /** No filter throws on any element of `data`. */
  predicate NeverRaises<R>(filters: seq<Filter<R>>, data: seq<R>) {
    forall i, k :: 0 <= i < |filters| && 0 <= k < |data| ==> filters[i].fn(data[k]) != Raise
  }

  /** The later filters do not throw on anything drawn from `data` either. */
  lemma NeverRaisesOnPart<R>(filters: seq<Filter<R>>, data: seq<R>, part: seq<R>)
    requires |filters| > 0 && NeverRaises(filters, data)
    requires forall k :: 0 <= k < |part| ==> part[k] in data
    ensures NeverRaises(filters[1..], part)
  {
    forall i, k | 0 <= i < |filters| - 1 && 0 <= k < |part|
      ensures filters[1..][i].fn(part[k]) != Raise
    {
      var j :| 0 <= j < |data| && data[j] == part[k];
      assert filters[1..][i] == filters[i + 1];
    }
  }

  /** Every filter keeps `x` exactly when the first does and so do the rest. */
  lemma AllKeepSplit<R>(filters: seq<Filter<R>>, x: R)
    requires |filters| > 0
    ensures AllKeep(filters, x) == (filters[0].fn(x) == Keep && AllKeep(filters[1..], x))
  {
    if filters[0].fn(x) == Keep && AllKeep(filters[1..], x) {
      forall i | 0 <= i < |filters|
        ensures filters[i].fn(x) == Keep
      {
        if i > 0 { assert filters[i] == filters[1..][i - 1]; }
      }
    }
  }

  /** Filters that never throw select exactly the records every filter keeps,
      in their original order. */
  lemma {:induction false} ApplyFiltersSelects<R>(data: seq<R>, filters: seq<Filter<R>>)
    requires NeverRaises(filters, data)
    ensures ApplyFilters(data, filters) == Select(x => AllKeep(filters, x), data)
    decreases |filters|
  {
    if |filters| == 0 {
      SelectEverything(x => AllKeep(filters, x), data);
    } else {
      var p := x => filters[0].fn(x) == Keep;
      var kept := Select(p, data);
      assert FilterStep(filters[0].fn, data) == Some(kept);
      var rest := filters[1..];
      NeverRaisesOnPart(filters, data, kept);
      ApplyFiltersSelects(kept, rest);
      var q := x => AllKeep(rest, x);
      SelectSelect(p, q, data);
      forall k | 0 <= k < |data|
        ensures (p(data[k]) && q(data[k])) == AllKeep(filters, data[k])
      {
        AllKeepSplit(filters, data[k]);
      }
      SelectCongruent(x => p(x) && q(x), x => AllKeep(filters, x), data);
    }
  }

  // ---------------------------------------------------------------------
  // Cache key

  /** `filters.reduce((acc, f) => acc + f.id, "")`. */
  function ConcatIds<R>(filters: seq<Filter<R>>): (t: string)
    ensures |filters| == 0 ==> t == ""
    ensures |filters| > 0 ==> var last := filters[|filters| - 1].id;
      |last| <= |t| && t[|t| - |last|..] == last
    decreases |filters|
  {
    if |filters| == 0 then ""
    else
      ConcatIds(filters[..|filters| - 1]) + filters[|filters| - 1].id
  }

  /** The key `hashKey` digests. The digest itself is taken to be injective,
      so the key stands for the triple it is computed from. */
  datatype Key = Key(id: string, maxItem: nat, filterIds: string)

  function HashKey<R>(id: string, maxItem: nat, filters: seq<Filter<R>>): (k: Key)
    ensures k.id == id && k.maxItem == maxItem
    ensures |filters| == 0 ==> k.filterIds == ""
  {
    Key(id, maxItem, ConcatIds(filters))
  }

  /** The ids concatenate piecewise, so how they are split between filters is
      invisible to the key. */
  lemma {:induction false} ConcatIdsAppend<R>(a: seq<Filter<R>>, b: seq<Filter<R>>)
    ensures ConcatIds(a + b) == ConcatIds(a) + ConcatIds(b)
    decreases |b|
  {
    if |b| > 0 {
      var front := b[..|b| - 1];
      var f := b[|b| - 1];
      assert b == front + [f];
      assert a + b == (a + front) + [f];
      ConcatIdsSnoc(a + front, f);
      ConcatIdsSnoc(front, f);
      ConcatIdsAppend(a, front);
      assert ConcatIds(a) + ConcatIds(front) + f.id == ConcatIds(a) + (ConcatIds(front) + f.id);
    } else {
      assert a + b == a;
    }
  }

  /** Appending one filter appends its id. */
  lemma ConcatIdsSnoc<R>(fs: seq<Filter<R>>, f: Filter<R>)
    ensures ConcatIds(fs + [f]) == ConcatIds(fs) + f.id
  {
    assert (fs + [f])[..|fs|] == fs;
  }

  lemma ConcatIdsSingle<R>(f: Filter<R>)
    ensures ConcatIds([f]) == f.id
  {
    assert [f][..0] == [];
  }

  lemma ConcatIdsPair<R>(f: Filter<R>, g: Filter<R>)
    ensures ConcatIds([f, g]) == f.id + g.id
  {
    assert [f, g][..1] == [f];
    ConcatIdsSingle(f);
  }

  /** The first filter's id opens the concatenation. */
  lemma ConcatIdsStartsWithFirst<R>(filters: seq<Filter<R>>)
    requires |filters| > 0
    ensures filters[0].id <= ConcatIds(filters)
  {
    assert filters == [filters[0]] + filters[1..];
    ConcatIdsAppend([filters[0]], filters[1..]);
    ConcatIdsSingle(filters[0]);
  }

  /** Two requests get the same key exactly when their dataset ids, caps and
      concatenated filter ids agree: predicates are never looked at. */
  lemma HashKeyCollision<R>(id1: string, m1: nat, f1: seq<Filter<R>>,
                            id2: string, m2: nat, f2: seq<Filter<R>>)
    ensures HashKey(id1, m1, f1) == HashKey(id2, m2, f2)
            <==> id1 == id2 && m1 == m2 && ConcatIds(f1) == ConcatIds(f2)
  {
  }

  /** Filter lists with the same ids in the same order get the same key,
      whatever their predicates. */
  lemma {:induction false} HashKeyIgnoresPredicates<R>(id: string, maxItem: nat,
                                                     f1: seq<Filter<R>>, f2: seq<Filter<R>>)
    requires |f1| == |f2|
    requires forall i :: 0 <= i < |f1| ==> f1[i].id == f2[i].id
    ensures HashKey(id, maxItem, f1) == HashKey(id, maxItem, f2)
    decreases |f1|
  {
    if |f1| > 0 {
      HashKeyIgnoresPredicates(id, maxItem, f1[..|f1| - 1], f2[..|f2| - 1]);
    }
  }

  /** `["ab", "c"]` and `["a", "bc"]` share a key. */
  lemma SplitIdsShareKey<R>(id: string, maxItem: nat, p: R -> Verdict, q: R -> Verdict)
    ensures HashKey(id, maxItem, [Filter("ab", p), Filter("c", q)])
         == HashKey(id, maxItem, [Filter("a", p), Filter("bc", q)])
  {
    ConcatIdsPair(Filter("ab", p), Filter("c", q));
    ConcatIdsPair(Filter("a", p), Filter("bc", q));
    assert "ab" + "c" == "abc" == "a" + "bc";
  }

  /** Swapping two filters changes the key exactly when it changes the
      concatenated ids. */
  lemma SwapChangesKeyIffText<R>(id: string, maxItem: nat, a: Filter<R>, b: Filter<R>)
    ensures HashKey(id, maxItem, [a, b]) == HashKey(id, maxItem, [b, a]) <==> a.id + b.id == b.id + a.id
  {
    ConcatIdsPair(a, b);
    ConcatIdsPair(b, a);
  }

  // ---------------------------------------------------------------------
  // Datasource table and providers

  /** One entry of the datasource table. */
  datatype Descriptor = Descriptor(provider: string, params: map<string, string>,
                                   interpolation: Option<string>)

  /** What constructing a provider and awaiting its `dataSet` yields. */
  datatype Fetched<R> = Fetched(records: seq<R>) | FetchFailed

  /** The properties every plain object inherits from `Object.prototype`.
      Looking one of them up in the datasource table finds the inherited
      value, not `undefined`, so the unknown-dataset guard lets it through. */
  const ObjectPrototypeNames: set<string> := {
    "constructor", "hasOwnProperty", "isPrototypeOf", "propertyIsEnumerable",
    "toLocaleString", "toString", "valueOf", "__proto__",
    "__defineGetter__", "__defineSetter__", "__lookupGetter__", "__lookupSetter__"
  }

  /** The providers the service can construct. */
  const ProviderNames: set<string> := {"DummyProvider", "CsvProvider"}

  /** The one registered decimation strategy. */
  const SimpleInterpolationName: string := "simpleInterpolation"

  /** An interpolation is configured when the entry names a non-empty one;
      the empty name is falsy in the program and counts as none. */
  predicate HasInterpolation(d: Descriptor) {
    d.interpolation.Some? && d.interpolation.value != ""
  }

  /** The configured strategy, if any, is one the service has registered. */
  predicate StrategyRegistered(d: Descriptor) {
    HasInterpolation(d) ==> d.interpolation.value == SimpleInterpolationName
  }

  /** The reduction step after filtering. With a configured interpolation and
      a non-zero cap the named strategy runs; a name that is not registered
      throws inside a try, which leaves the filtered data as it was. Without
      an interpolation a non-zero cap keeps a prefix; a zero cap keeps all. */
  function Reduce<R>(data: seq<R>, d: Descriptor, maxItem: nat): (r: seq<R>)
    ensures maxItem == 0 ==> r == data
    ensures maxItem != 0 && !HasInterpolation(d) ==>
      |r| == (if maxItem <= |data| then maxItem else |data|) && r == data[..|r|]
    ensures maxItem != 0 && HasInterpolation(d) && d.interpolation.value == SimpleInterpolationName ==>
      r == SimpleInterpolation(data, maxItem)
    ensures maxItem != 0 && HasInterpolation(d) && d.interpolation.value != SimpleInterpolationName ==>
      r == data
  {
    if HasInterpolation(d) && maxItem != 0 then
      if d.interpolation.value == SimpleInterpolationName then SimpleInterpolation(data, maxItem)
      else data
    else if maxItem != 0 then
      if maxItem <= |data| then data[..maxItem] else data
    else data
  }

  lemma ReduceIsSubsequence<R>(data: seq<R>, d: Descriptor, maxItem: nat)
    ensures IsSubsequence(Reduce(data, d, maxItem), data)
    ensures |Reduce(data, d, maxItem)| <= |data|
  {
    var r := Reduce(data, d, maxItem);
    if HasInterpolation(d) && maxItem != 0 && d.interpolation.value == SimpleInterpolationName {
      SimpleInterpolationIsSubsequence(data, maxItem);
    } else {
      assert r == data[..|r|];
      PrefixIsSubsequence(data, |r|);
    }
    SubsequenceLength(r, data);
  }

  /** A non-zero cap bounds the result unless the configured strategy is not
      registered, in which case the filtered data comes back untruncated. */
  lemma ReduceBounded<R>(data: seq<R>, d: Descriptor, maxItem: nat)
    requires maxItem != 0
    requires StrategyRegistered(d)
    ensures |Reduce(data, d, maxItem)| <= maxItem
  {
    if HasInterpolation(d) {
      SimpleInterpolationBounded(data, maxItem);
    }
  }

  // ---------------------------------------------------------------------
  // The resolver

  type Cache<R> = map<Key, seq<R>>

  /** The answer to `dataSet`: records, or the error it throws. */
  datatype Response<R> = Records(records: seq<R>) | UnknownDataset

  /** The cache after a request, and the request's answer. */
  datatype Step<R> = Step(cache: Cache<R>, response: Response<R>)

  /** `dataSet(id, maxItem, filters)` against the datasource table `sources`,
      with `fetch(name, params)` standing for constructing provider `name`
      and awaiting its records. */
  function DataSet<R>(cache: Cache<R>, sources: map<string, Descriptor>,
                      fetch: (string, map<string, string>) -> Fetched<R>,
                      id: string, maxItem: nat, filters: seq<Filter<R>>): (out: Step<R>)
    // a hit is served from the cache and nothing else is consulted
    ensures HashKey(id, maxItem, filters) in cache ==>
      out == Step(cache, Records(cache[HashKey(id, maxItem, filters)]))
    // an unknown dataset throws and leaves the cache alone
    ensures HashKey(id, maxItem, filters) !in cache && id !in sources && id !in ObjectPrototypeNames ==>
      out == Step(cache, UnknownDataset)
    // an inherited name passes the guard but has no provider: no records, no entry
    ensures HashKey(id, maxItem, filters) !in cache && id !in sources && id in ObjectPrototypeNames ==>
      out == Step(cache, Records([]))
    ensures out.response.UnknownDataset? ==> out.cache == cache
    // the only entry that can change is the request's own, and it is then the answer
    ensures out.cache == cache
         || (out.response.Records? && out.cache == cache[HashKey(id, maxItem, filters) := out.response.records])
    // a provider that cannot be built or fails yields no records and no entry
    ensures HashKey(id, maxItem, filters) !in cache && id in sources
            && (sources[id].provider !in ProviderNames
                || fetch(sources[id].provider, sources[id].params).FetchFailed?) ==>
      out == Step(cache, Records([]))
  {
    var key := HashKey(id, maxItem, filters);
    if key in cache then Step(cache, Records(cache[key]))
    else if id !in sources then
      if id in ObjectPrototypeNames then Step(cache, Records([])) else Step(cache, UnknownDataset)
    else
      var d := sources[id];
      if d.provider !in ProviderNames then Step(cache, Records([]))
      else
        match fetch(d.provider, d.params)
        case FetchFailed => Step(cache, Records([]))
        case Fetched(raw) =>
          var data := Reduce(ApplyFilters(raw, filters), d, maxItem);
          Step(cache[key := data], Records(data))
  }

  /** On a miss for a known dataset whose provider delivers `raw`, the answer
      is `raw` filtered in order and then reduced, and it is stored under the
      request's key. */
  lemma DataSetMiss<R>(cache: Cache<R>, sources: map<string, Descriptor>,
                       fetch: (string, map<string, string>) -> Fetched<R>,
                       id: string, maxItem: nat, filters: seq<Filter<R>>)
    requires HashKey(id, maxItem, filters) !in cache && id in sources
    requires sources[id].provider in ProviderNames
    requires fetch(sources[id].provider, sources[id].params).Fetched?
    ensures var raw := fetch(sources[id].provider, sources[id].params).records;
            var data := Reduce(ApplyFilters(raw, filters), sources[id], maxItem);
            var out := DataSet(cache, sources, fetch, id, maxItem, filters);
            && out.response == Records(data)
            && out.cache == cache[HashKey(id, maxItem, filters) := data]
            && IsSubsequence(data, raw)
            && |data| <= |raw|
            && (maxItem == 0 ==> data == ApplyFilters(raw, filters))
  {
    var raw := fetch(sources[id].provider, sources[id].params).records;
    var filtered := ApplyFilters(raw, filters);
    ReduceIsSubsequence(filtered, sources[id], maxItem);
    ApplyFiltersIsSubsequence(raw, filters);
    SubsequenceTransitive(Reduce(filtered, sources[id], maxItem), filtered, raw);
    SubsequenceLength(Reduce(filtered, sources[id], maxItem), raw);
  }

  /** A cached answer does not depend on the datasource table or the providers. */
  lemma CacheHitIgnoresSources<R>(cache: Cache<R>,
                                  sources1: map<string, Descriptor>, fetch1: (string, map<string, string>) -> Fetched<R>,
                                  sources2: map<string, Descriptor>, fetch2: (string, map<string, string>) -> Fetched<R>,
                                  id: string, maxItem: nat, filters: seq<Filter<R>>)
    requires HashKey(id, maxItem, filters) in cache
    ensures DataSet(cache, sources1, fetch1, id, maxItem, filters)
         == DataSet(cache, sources2, fetch2, id, maxItem, filters)
  {
  }

  /** After a request its key is cached exactly when the request was a hit
      or its provider delivered records; from then on the same request is
      answered from the cache, whatever the table and the providers say. A
      request whose provider failed leaves nothing behind, so asking again
      consults the provider again. */
  lemma DataSetIdempotent<R>(cache: Cache<R>, sources: map<string, Descriptor>,
                             fetch: (string, map<string, string>) -> Fetched<R>,
                             sources2: map<string, Descriptor>,
                             fetch2: (string, map<string, string>) -> Fetched<R>,
                             id: string, maxItem: nat, filters: seq<Filter<R>>)
    ensures var first := DataSet(cache, sources, fetch, id, maxItem, filters);
            var key := HashKey(id, maxItem, filters);
            && (key in first.cache <==>
                  key in cache
                  || (id in sources && sources[id].provider in ProviderNames
                      && fetch(sources[id].provider, sources[id].params).Fetched?))
            && (key in first.cache ==>
                  DataSet(first.cache, sources2, fetch2, id, maxItem, filters) == first)
            && (key !in first.cache ==> first.cache == cache)
  {
  }

  // ---------------------------------------------------------------------
  // Caps in the cache

  /** Every entry cached for a non-zero cap of a dataset with a registered
      strategy (or none) holds at most that many records. */
  predicate RespectsCaps<R>(cache: Cache<R>, sources: map<string, Descriptor>) {
    forall k :: k in cache && k.maxItem != 0 && k.id in sources && StrategyRegistered(sources[k.id])
      ==> |cache[k]| <= k.maxItem
  }

  /** The service starts with an empty cache, which respects every cap. */
  lemma EmptyCacheRespectsCaps<R>(sources: map<string, Descriptor>)
    ensures RespectsCaps<R>(map[], sources)
  {
  }

  /** Every request keeps the caps respected. */
  lemma DataSetRespectsCaps<R>(cache: Cache<R>, sources: map<string, Descriptor>,
                               fetch: (string, map<string, string>) -> Fetched<R>,
                               id: string, maxItem: nat, filters: seq<Filter<R>>)
    requires RespectsCaps(cache, sources)
    ensures RespectsCaps(DataSet(cache, sources, fetch, id, maxItem, filters).cache, sources)
  {
    var key := HashKey(id, maxItem, filters);
    var out := DataSet(cache, sources, fetch, id, maxItem, filters);
    if key !in cache && id in sources && sources[id].provider in ProviderNames
       && fetch(sources[id].provider, sources[id].params).Fetched? {
      var raw := fetch(sources[id].provider, sources[id].params).records;
      var data := Reduce(ApplyFilters(raw, filters), sources[id], maxItem);
      assert out.cache == cache[key := data];
      if maxItem != 0 && StrategyRegistered(sources[id]) {
        ReduceBounded(ApplyFilters(raw, filters), sources[id], maxItem);
      }
      forall k | k in out.cache && k.maxItem != 0 && k.id in sources && StrategyRegistered(sources[k.id])
        ensures |out.cache[k]| <= k.maxItem
      {
        if k != key {
          assert k in cache && out.cache[k] == cache[k];
        }
      }
    } else {
      assert out.cache == cache;
    }
  }

  /** With a non-zero cap and a registered strategy (or none) the answer never
      has more than `maxItem` records, from any cache the service can reach. */
  lemma DataSetBounded<R>(cache: Cache<R>, sources: map<string, Descriptor>,
                          fetch: (string, map<string, string>) -> Fetched<R>,
                          id: string, maxItem: nat, filters: seq<Filter<R>>)
    requires maxItem != 0
    requires id in sources && StrategyRegistered(sources[id])
    requires RespectsCaps(cache, sources)
    ensures var out := DataSet(cache, sources, fetch, id, maxItem, filters);
            out.response.Records? && |out.response.records| <= maxItem
  {
    var key := HashKey(id, maxItem, filters);
    if key !in cache && sources[id].provider in ProviderNames {
      match fetch(sources[id].provider, sources[id].params)
      case FetchFailed =>
      case Fetched(raw) =>
        ReduceBounded(ApplyFilters(raw, filters), sources[id], maxItem);
    }
  }
}

=== FILE: dummy_provider.dfy ===
/** `DummyProvider`: a static fixture of five raw records used for smoke tests.
    Its constructor and `dataSet` take no notice of any parameter, and both
    fields of every record stay text. */
module DummyProvider {
  import opened Options
  import opened Calendar
  import opened Transforms

  /** The value column of the fixture, in order. */
  const FixtureValues: seq<string> := ["4", "0", "0", "3", "5"]

  /** The basic-format text of the first day of month `m` of 1970. */
  lemma FirstOfMonthText(m: nat)
    requires 1 <= m <= 9
    ensures ValidDate(Date(1970, m, 1))
    ensures FormatBasic(Date(1970, m, 1)) == "19700" + [DigitChar(m)] + "01"
  {
    DecimalYear1970();
    DecimalTwoDigits(m);
    DecimalTwoDigits(1);
  }

  /** The records exactly as the fixture writes them. */
  const FixtureRows: seq<Row> := [
    Row("19700101", "4", map[]),
    Row("19700201", "0", map[]),
    Row("19700301", "0", map[]),
    Row("19700401", "3", map[]),
    Row("19700501", "5", map[])
  ]

  /** Record `i` of the fixture is the first of month `i + 1` of 1970. */
  lemma FixtureRowText(i: nat)
    requires i < 5
    ensures ValidDate(Date(1970, i + 1, 1))
    ensures FixtureRows[i] == Row(FormatBasic(Date(1970, i + 1, 1)), FixtureValues[i], map[])
  {
    FirstOfMonthText(i + 1);
    var c := DigitChar(i + 1);
    if i == 0 { assert c == '1'; assert "19700" + [c] + "01" == "19700101"; }
    else if i == 1 { assert c == '2'; assert "19700" + [c] + "01" == "19700201"; }
    else if i == 2 { assert c == '3'; assert "19700" + [c] + "01" == "19700301"; }
    else if i == 3 { assert c == '4'; assert "19700" + [c] + "01" == "19700401"; }
    else { assert c == '5'; assert "19700" + [c] + "01" == "19700501"; }
  }

  lemma FixtureRowsText()
    ensures |FixtureRows| == 5
    ensures forall i :: 0 <= i < 5 ==>
      FixtureRows[i] == Row(FormatBasic(Date(1970, i + 1, 1)), FixtureValues[i], map[])
  {
    forall i | 0 <= i < 5
      ensures FixtureRows[i] == Row(FormatBasic(Date(1970, i + 1, 1)), FixtureValues[i], map[])
    {
      FixtureRowText(i);
    }
  }

  /** `dataSet`: the first days of January to May 1970, written `YYYYMMDD`,
      with the values 4, 0, 0, 3, 5 as text and no other column. */
  function DataSet(params: map<string, string>): (rows: seq<Row>)
    ensures |rows| == 5
    ensures forall i :: 0 <= i < |rows| ==>
      rows[i] == Row(FormatBasic(Date(1970, i + 1, 1)), FixtureValues[i], map[])
  {
    FixtureRowsText();
    FixtureRows
  }

  /** Every fixture date is a valid basic-format date, `bigEndian` reads each
      record as the first of its month, and the dates strictly increase. */
  lemma FixtureDecodes(params: map<string, string>)
    ensures var rows := DataSet(params);
      && (forall i :: 0 <= i < |rows| ==>
            BigEndian(rows[i]) == Some(Sample(Date(1970, i + 1, 1), FixtureValues[i])))
      && (forall i, j :: 0 <= i < j < |rows| ==>
            DateLt(BigEndian(rows[i]).value.date, BigEndian(rows[j]).value.date))
  {
    var rows := DataSet(params);
    forall i | 0 <= i < |rows|
      ensures BigEndian(rows[i]) == Some(Sample(Date(1970, i + 1, 1), FixtureValues[i]))
    {
      BigEndianReadsEveryDate(Date(1970, i + 1, 1), FixtureValues[i], map[]);
    }
  }
}

=== FILE: fixture_resolution.dfy ===
/** The resolver run end to end over the fixture provider: a datasource
    table whose entries all name `DummyProvider`. */
module FixtureResolution {
  import opened Options
  import opened Interpolation
  import opened Transforms
  import opened DataService
  import DummyProvider

  /** Constructing and fetching a provider when only the fixture is reachable. */
  function FixtureOnly(name: string, params: map<string, string>): Fetched<Row> {
    if name == "DummyProvider" then Fetched(DummyProvider.DataSet(params)) else FetchFailed
  }

  /** A table with the fixture served plainly and through `simpleInterpolation`. */
  const Sources: map<string, Descriptor> :=
    map[ "dummy" := Descriptor("DummyProvider", map[], None),
         "dummy-decimated" := Descriptor("DummyProvider", map[], Some(SimpleInterpolationName)) ]

  /** With cap 0 and no filters the first request returns all five records
      and caches them under the key of the request. */
  lemma FixtureInFull()
    ensures var rows := DummyProvider.DataSet(map[]);
            DataSet(map[], Sources, FixtureOnly, "dummy", 0, [])
              == Step(map[Key("dummy", 0, "") := rows], Records(rows))
  {
    DataSetMiss(map[], Sources, FixtureOnly, "dummy", 0, []);
  }

  /** Without an interpolation a cap of 2 keeps the first two records. */
  lemma FixtureTruncated()
    ensures var rows := DummyProvider.DataSet(map[]);
            DataSet(map[], Sources, FixtureOnly, "dummy", 2, []).response
              == Records([rows[0], rows[1]])
  {
    var rows := DummyProvider.DataSet(map[]);
    DataSetMiss(map[], Sources, FixtureOnly, "dummy", 2, []);
    PrefixOfTwo(rows, Sources["dummy"]);
  }

  /** Without an interpolation a cap of 2 keeps a prefix of two. */
  lemma PrefixOfTwo<R>(data: seq<R>, d: Descriptor)
    requires |data| == 5 && !HasInterpolation(d)
    ensures Reduce(data, d, 2) == [data[0], data[1]]
  {
    assert data[..2] == [data[0], data[1]];
  }

  /** Five elements capped at 2: stride `ceil(5 / 2) = 3`, so indices 0 and 3. */
  lemma FiveCappedAtTwo<T>(vals: seq<T>)
    requires |vals| == 5
    ensures SimpleInterpolation(vals, 2) == [vals[0], vals[3]]
  {
    assert CeilDiv(5, 2) == 3;
    assert CeilDiv(5, 3) == 2;
    var r := SimpleInterpolation(vals, 2);
    assert r[0] == vals[0 * 3] && r[1] == vals[1 * 3];
  }

  /** Through `simpleInterpolation` a cap of 2 gives stride `ceil(5 / 2) = 3`:
      the January and April records. */
  lemma FixtureDecimated()
    ensures var rows := DummyProvider.DataSet(map[]);
            DataSet(map[], Sources, FixtureOnly, "dummy-decimated", 2, []).response
              == Records([rows[0], rows[3]])
  {
    var rows := DummyProvider.DataSet(map[]);
    DataSetMiss(map[], Sources, FixtureOnly, "dummy-decimated", 2, []);
    FiveCappedAtTwo(rows);
  }

  /** An inherited name such as `toString` is not an unknown dataset: it
      finds no provider, so it is answered with no records and caches nothing. */
  lemma InheritedNameYieldsNothing(maxItem: nat)
    ensures DataSet(map[], Sources, FixtureOnly, "toString", maxItem, [])
         == Step(map[], Records([]))
  {
  }

  /** A dataset id the table does not know fails. */
  lemma NonexistentDataset(maxItem: nat)
    ensures DataSet(map[], Sources, FixtureOnly, "nonexistent", maxItem, []).response == UnknownDataset
  {
  }
}

=== FILE: graph_container.dfy ===
/** The decision rules of `GraphContainer`, the component that asks the
    resolver for one graph's data: the resize policy that sets the item cap,
    the filter list built from the selected dates, the guard on date changes,
    the request itself and the mapping of samples to chart points. Timers,
    observers and rendering are not part of this model. */
module GraphContainer {
  import opened Options
  import opened Calendar
  import opened Sequences
  import opened Transforms
  import opened DataService

  // ---------------------------------------------------------------------
  // Resize policy

  /** `dimensions`: the container's current width, and `size`, the cap of the
      data last asked for. Both start at 0. */
  datatype Dimensions = Dimensions(width: nat, size: nat)

  const InitialDimensions: Dimensions := Dimensions(0, 0)

  /** The dimensions after a resize, and whether a refresh was requested. */
  datatype Resized = Resized(dims: Dimensions, refresh: bool)

  /** One observed width `w`. The same width changes nothing; a width within
      the current cap is recorded without a request; a wider one raises the
      cap to it and requests one refresh. */
  function OnResize(dims: Dimensions, w: nat): (r: Resized)
    ensures r.refresh <==> w != dims.width && w > dims.size
    ensures r.dims.width == w
    ensures r.dims.size == (if r.refresh then w else dims.size)
    ensures w == dims.width ==> r.dims == dims
    ensures dims.width <= dims.size ==> r.dims.width <= r.dims.size
  {
    if w == dims.width then Resized(dims, false)
    else
      var updated := dims.(width := w);
      if updated.width <= updated.size then Resized(updated, false)
      else Resized(updated.(size := updated.width), true)
  }

  /** One observer callback. Every path through its loop body returns, so
      only the first entry is ever looked at. */
  function OnEntries(dims: Dimensions, widths: seq<nat>): (r: Resized)
    ensures |widths| == 0 ==> r == Resized(dims, false)
    ensures |widths| > 0 ==> r.dims.width == widths[0]
    ensures |widths| > 0 ==> (r.refresh <==> widths[0] != dims.width && widths[0] > dims.size)
    ensures r.refresh ==> |widths| > 0 && widths[0] > dims.size && r.dims.size == widths[0]
    ensures !r.refresh ==> r.dims.size == dims.size
  {
    if |widths| == 0 then Resized(dims, false) else OnResize(dims, widths[0])
  }

  /** Entries after the first in one callback change nothing. */
  lemma OnlyFirstEntryCounts(dims: Dimensions, w: nat, rest: seq<nat>)
    ensures OnEntries(dims, [w] + rest) == OnEntries(dims, [w])
  {
    assert ([w] + rest)[0] == w;
  }

  /** The dimensions after a run of observed widths, and how many refreshes
      the run requested. */
  datatype Replayed = Replayed(dims: Dimensions, refreshes: nat)

  function Replay(dims: Dimensions, widths: seq<nat>): Replayed
    decreases |widths|
  {
    if |widths| == 0 then Replayed(dims, 0)
    else
      var before := Replay(dims, widths[..|widths| - 1]);
      var r := OnResize(before.dims, widths[|widths| - 1]);
      Replayed(r.dims, before.refreshes + (if r.refresh then 1 else 0))
  }

  /** The largest of `m` and the widths. */
  function MaxWidth(m: nat, widths: seq<nat>): (r: nat)
    ensures m <= r
    ensures forall i :: 0 <= i < |widths| ==> widths[i] <= r
    decreases |widths|
  {
    if |widths| == 0 then m
    else
      var front := MaxWidth(m, widths[..|widths| - 1]);
      var last := widths[|widths| - 1];
      if last > front then last else front
  }

  /** Over any run of widths from a state with `width <= size`: the property
      keeps holding, the cap never drops and ends as the widest width seen,
      the width ends as the last one observed, and each refresh grew the cap,
      so there are never more refreshes than the cap grew. */
  lemma {:induction false} ReplayKeepsPolicy(dims: Dimensions, widths: seq<nat>)
    requires dims.width <= dims.size
    ensures var out := Replay(dims, widths);
      && out.dims.width <= out.dims.size
      && dims.size <= out.dims.size
      && out.dims.size == MaxWidth(dims.size, widths)
      && out.refreshes <= out.dims.size - dims.size
      && (|widths| > 0 ==> out.dims.width == widths[|widths| - 1])
    decreases |widths|
  {
    if |widths| > 0 {
      ReplayKeepsPolicy(dims, widths[..|widths| - 1]);
    }
  }

  // ---------------------------------------------------------------------
  // Date range and filters

  /** The selected dates; `None` stands for `null`, an open end. */
  datatype DateRange = DateRange(start: Option<Date>, end: Option<Date>)

  predicate ValidRange(r: DateRange) {
    (r.start.Some? ==> ValidDate(r.start.value)) && (r.end.Some? ==> ValidDate(r.end.value))
  }

  /** Both ends are inclusive. */
  predicate InRange(r: DateRange, d: Date) {
    (r.start.Some? ==> DateLe(r.start.value, d)) && (r.end.Some? ==> DateLe(d, r.end.value))
  }

  /** Membership in the range, as a predicate on samples. */
  function InRangeSample(r: DateRange): Sample<Date> -> bool {
    (s: Sample<Date>) => InRange(r, s.date)
  }

  function StartFilter(start: Date): Filter<Sample<Date>>
    requires ValidDate(start)
  {
    Filter("start-" + FormatExtended(start), (s: Sample<Date>) => if DateLe(start, s.date) then Keep else Drop)
  }

  function EndFilter(end: Date): Filter<Sample<Date>>
    requires ValidDate(end)
  {
    Filter("end=" + FormatExtended(end), (s: Sample<Date>) => if DateLe(s.date, end) then Keep else Drop)
  }

  /** The filter list `poolData` builds: the start filter when a start is
      set, then the end filter when an end is set, in that order. */
  function BuildFilters(r: DateRange): (fs: seq<Filter<Sample<Date>>>)
    requires ValidRange(r)
    ensures |fs| == (if r.start.Some? then 1 else 0) + (if r.end.Some? then 1 else 0)
    ensures r.start.Some? ==> fs[0].id == "start-" + FormatExtended(r.start.value)
    ensures r.end.Some? ==> fs[|fs| - 1].id == "end=" + FormatExtended(r.end.value)
    ensures forall i, s :: 0 <= i < |fs| ==> fs[i].fn(s) != Raise
    ensures forall s :: AllKeep(fs, s) <==> InRange(r, s.date)
  {
    (if r.start.Some? then [StartFilter(r.start.value)] else [])
    + (if r.end.Some? then [EndFilter(r.end.value)] else [])
  }

  /** The built filters never throw, and together they keep exactly the
      samples whose date lies in the range, ends included, in order. */
  lemma BuildFiltersSelectRange(r: DateRange, data: seq<Sample<Date>>)
    requires ValidRange(r)
    ensures ApplyFilters(data, BuildFilters(r)) == Select(InRangeSample(r), data)
  {
    var fs := BuildFilters(r);
    ApplyFiltersSelects(data, fs);
    SelectCongruent(x => AllKeep(fs, x), InRangeSample(r), data);
  }

  /** The concatenated filter ids, the part of the cache key the dates feed. */
  lemma FilterIdsText(r: DateRange)
    requires ValidRange(r)
    ensures ConcatIds(BuildFilters(r))
         == (if r.start.Some? then "start-" + FormatExtended(r.start.value) else "")
          + (if r.end.Some? then "end=" + FormatExtended(r.end.value) else "")
  {
    var a: seq<Filter<Sample<Date>>> := if r.start.Some? then [StartFilter(r.start.value)] else [];
    var b: seq<Filter<Sample<Date>>> := if r.end.Some? then [EndFilter(r.end.value)] else [];
    ConcatIdsAppend(a, b);
    if r.start.Some? { ConcatIdsSingle(a[0]); }
    if r.end.Some? { ConcatIdsSingle(b[0]); }
  }

  /** Reads a date range back from concatenated filter ids: the lengths 16,
      14 and 30 tell a start alone, an end alone and both apart. */
  function RangeOfIds(t: string): DateRange {
    if |t| == 16 then DateRange(ParseExtended(t[6..]), None)
    else if |t| == 14 then DateRange(None, ParseExtended(t[4..]))
    else if |t| == 30 then DateRange(ParseExtended(t[6..16]), ParseExtended(t[20..]))
    else DateRange(None, None)
  }

  /** The filter ids of a range spell the range out: reading them back gives it. */
  lemma StartIdRoundTrip(a: Date)
    requires ValidDate(a)
    ensures RangeOfIds("start-" + FormatExtended(a)) == DateRange(Some(a), None)
  {
    var t := "start-" + FormatExtended(a);
    assert t[6..] == FormatExtended(a);
    ParseFormatExtended(a);
  }

  lemma EndIdRoundTrip(b: Date)
    requires ValidDate(b)
    ensures RangeOfIds("end=" + FormatExtended(b)) == DateRange(None, Some(b))
  {
    var t := "end=" + FormatExtended(b);
    assert t[4..] == FormatExtended(b);
    ParseFormatExtended(b);
  }

  lemma BothIdsRoundTrip(a: Date, b: Date)
    requires ValidDate(a) && ValidDate(b)
    ensures RangeOfIds("start-" + FormatExtended(a) + ("end=" + FormatExtended(b)))
         == DateRange(Some(a), Some(b))
  {
    var sa := "start-" + FormatExtended(a);
    var sb := "end=" + FormatExtended(b);
    var t := sa + sb;
    assert |t| == 30;
    assert ParseExtended(t[6..16]) == Some(a) by {
      SliceOfJoin(sa, sb, 6);
      assert sa[6..] == FormatExtended(a);
      ParseFormatExtended(a);
    }
    assert ParseExtended(t[20..]) == Some(b) by {
      assert t[20..] == sb[4..];
      assert sb[4..] == FormatExtended(b);
      ParseFormatExtended(b);
    }
  }

  lemma FilterIdsRoundTrip(r: DateRange)
    requires ValidRange(r)
    ensures RangeOfIds(ConcatIds(BuildFilters(r))) == r
  {
    FilterIdsText(r);
    var t := ConcatIds(BuildFilters(r));
    match (r.start, r.end)
    case (None, None) =>
      assert t == "" + "";
    case (Some(a), None) =>
      assert t == "start-" + FormatExtended(a) + "";
      assert t == "start-" + FormatExtended(a);
      StartIdRoundTrip(a);
    case (None, Some(b)) =>
      assert t == "" + ("end=" + FormatExtended(b));
      assert t == "end=" + FormatExtended(b);
      EndIdRoundTrip(b);
    case (Some(a), Some(b)) =>
      BothIdsRoundTrip(a, b);
  }

  /** Different date ranges never share a cache key. */
  lemma FilterIdsDetermineRange(r1: DateRange, r2: DateRange)
    requires ValidRange(r1) && ValidRange(r2)
    requires ConcatIds(BuildFilters(r1)) == ConcatIds(BuildFilters(r2))
    ensures r1 == r2
  {
    FilterIdsRoundTrip(r1);
    FilterIdsRoundTrip(r2);
  }

  // ---------------------------------------------------------------------
  // Date selection guard

  /** The dates after a picker callback, and whether a refresh was requested. */
  datatype Picked = Picked(dates: DateRange, refresh: bool)

  /** `dateSelected`: an unchanged pair of dates requests nothing; any change
      is recorded and requests a refresh. */
  function DateSelected(current: DateRange, picked: DateRange): (r: Picked)
    ensures r.dates == picked
    ensures r.refresh <==> picked != current
  {
    if picked.start == current.start && picked.end == current.end then Picked(current, false)
    else Picked(picked, true)
  }

  // ---------------------------------------------------------------------
  // Series and the request

  /** One chart point: `x` the date, `y` the value. */
  datatype Point<D> = Point(x: D, y: string)

  /** `data.map(el => ({x: el.date, y: el.value}))`. */
  function Series<D>(data: seq<Sample<D>>): (pts: seq<Point<D>>)
    ensures |pts| == |data|
    ensures forall i :: 0 <= i < |data| ==> pts[i].x == data[i].date && pts[i].y == data[i].value
  {
    seq(|data|, i requires 0 <= i < |data| => Point(data[i].date, data[i].value))
  }

  /** Reading the samples back from the points. */
  function SamplesOf<D>(pts: seq<Point<D>>): (data: seq<Sample<D>>)
    ensures |data| == |pts|
  {
    seq(|pts|, i requires 0 <= i < |pts| => Sample(pts[i].x, pts[i].y))
  }

  /** The series loses nothing and reorders nothing. */
  lemma SeriesRoundTrip<D>(data: seq<Sample<D>>)
    ensures SamplesOf(Series(data)) == data
  {
  }

  /** What the container shows: the loading state or a chart. */
  datatype View<D> = Loading | Chart(series: seq<Point<D>>)

  datatype Rendered<D> = Rendered(cache: Cache<Sample<D>>, view: View<D>)

  /** `renderGraph(size, filters)`. A cap of 0 asks nothing and changes
      nothing. Otherwise the resolver is asked for `size` items; its records
      become the chart, and its failure leaves the loading state showing. */
  function RenderGraph<D>(cache: Cache<Sample<D>>, sources: map<string, Descriptor>,
                          fetch: (string, map<string, string>) -> Fetched<Sample<D>>,
                          dataset: string, view: View<D>,
                          size: nat, filters: seq<Filter<Sample<D>>>): (out: Rendered<D>)
    ensures size == 0 ==> out == Rendered(cache, view)
    ensures size > 0 ==> out.cache == DataSet(cache, sources, fetch, dataset, size, filters).cache
    ensures size > 0 ==>
      match DataSet(cache, sources, fetch, dataset, size, filters).response
      case UnknownDataset => out.view == Loading
      case Records(data) => out.view.Chart? && SamplesOf(out.view.series) == data
  {
    if size == 0 then Rendered(cache, view)
    else
      var step := DataSet(cache, sources, fetch, dataset, size, filters);
      match step.response
      case UnknownDataset => Rendered(step.cache, Loading)
      case Records(data) =>
        SeriesRoundTrip(data);
        Rendered(step.cache, Chart(Series(data)))
  }

  /** Before any width has been observed the cap is 0, so picking dates
      records them but asks the resolver nothing. */
  lemma NoRequestBeforeFirstResize(cache: Cache<Sample<Date>>, sources: map<string, Descriptor>,
                                   fetch: (string, map<string, string>) -> Fetched<Sample<Date>>,
                                   dataset: string, view: View<Date>, current: DateRange, picked: DateRange)
    requires ValidRange(picked)
    ensures var p := DateSelected(current, picked);
            RenderGraph(cache, sources, fetch, dataset, view, InitialDimensions.size, BuildFilters(p.dates))
              == Rendered(cache, view)
  {
  }

  /** Five samples dated the first of January to May 1970. */
  function FirstOfMonths(v: seq<string>): (data: seq<Sample<Date>>)
    requires |v| == 5
    ensures |data| == 5
    ensures forall i :: 0 <= i < 5 ==> data[i] == Sample(Date(1970, i + 1, 1), v[i])
  {
    [ Sample(Date(1970, 1, 1), v[0]), Sample(Date(1970, 2, 1), v[1]),
      Sample(Date(1970, 3, 1), v[2]), Sample(Date(1970, 4, 1), v[3]),
      Sample(Date(1970, 5, 1), v[4]) ]
  }

  lemma SelectFebruaryToApril(v: seq<string>)
    requires |v| == 5
    ensures var data := FirstOfMonths(v);
            Select(InRangeSample(DateRange(Some(Date(1970, 2, 1)), Some(Date(1970, 4, 1)))), data)
              == data[1..4]
  {
    var data := FirstOfMonths(v);
    var p := InRangeSample(DateRange(Some(Date(1970, 2, 1)), Some(Date(1970, 4, 1))));
    assert data == [data[0], data[1], data[2], data[3], data[4]];
    assert data[1..4] == [data[1], data[2], data[3]];
    SelectMiddleThree(p, data[0], data[1], data[2], data[3], data[4]);
  }

  /** Samples dated the first of January to May 1970, filtered from the first
      of February to the first of April: February, March and April remain. */
  lemma FebruaryToApril(v: seq<string>)
    requires |v| == 5
    ensures var data := FirstOfMonths(v);
            ApplyFilters(data, BuildFilters(DateRange(Some(Date(1970, 2, 1)), Some(Date(1970, 4, 1)))))
              == data[1..4]
  {
    var r := DateRange(Some(Date(1970, 2, 1)), Some(Date(1970, 4, 1)));
    BuildFiltersSelectRange(r, FirstOfMonths(v));
    SelectFebruaryToApril(v);
  }
}

=== FILE: graph_widget.dfy ===
/** `GraphWidget`: one tab per configured graph. The tab shown at start-up is
    the one remembered under `graphtab` in local storage when it still names
    a configured tab, and the first configured tab otherwise; clicking a tab
    remembers its key. */
module GraphWidget {
  import opened Options

  /** One entry of the graph configuration: the tab key and the dataset its
      panel charts. */
  datatype TabConfig = TabConfig(key: string, dataset: string)

  /** The configured graphs, in tab order. */
  const GraphTabs: seq<TabConfig> := [
    TabConfig("rain-level", "rain-level"),
    TabConfig("temperature", "temperature")
  ]

  /** The local-storage entry that remembers the last tab clicked. */
  const StorageKey: string := "graphtab"

  /** Browser local storage, as text keys to text values. */
  type Storage = map<string, string>

  predicate HasTab(tabs: seq<TabConfig>, k: string) {
    exists i :: 0 <= i < |tabs| && tabs[i].key == k
  }

  /** The loop over the configuration: the stored key when some tab carries
      it, `None` when none does. */
  function FindTab(tabs: seq<TabConfig>, stored: string): (r: Option<string>)
    ensures r.Some? <==> HasTab(tabs, stored)
    ensures r.Some? ==> r.value == stored
  {
    if |tabs| == 0 then None
    else if tabs[0].key == stored then Some(stored)
    else
      var r := FindTab(tabs[1..], stored);
      assert HasTab(tabs[1..], stored) ==> HasTab(tabs, stored) by {
        if HasTab(tabs[1..], stored) {
          var i :| 0 <= i < |tabs| - 1 && tabs[1..][i].key == stored;
          assert tabs[i + 1].key == stored;
        }
      }
      assert HasTab(tabs, stored) ==> HasTab(tabs[1..], stored) by {
        if HasTab(tabs, stored) {
          var i :| 0 <= i < |tabs| && tabs[i].key == stored;
          assert i != 0;
          assert tabs[1..][i - 1].key == stored;
        }
      }
      r
  }

  /** `selected`: the remembered tab when it is still configured, else the
      first configured tab. `None` stands for the exception an empty
      configuration raises when its first entry is read. */
  function Selected(tabs: seq<TabConfig>, storage: Storage): (r: Option<string>)
    ensures r.None? <==> |tabs| == 0
    ensures r.Some? ==> HasTab(tabs, r.value)
    ensures r.Some? && StorageKey in storage && HasTab(tabs, storage[StorageKey]) ==>
      r.value == storage[StorageKey]
    ensures r.Some? && !(StorageKey in storage && HasTab(tabs, storage[StorageKey])) ==>
      r.value == tabs[0].key
  {
    var found := if StorageKey in storage then FindTab(tabs, storage[StorageKey]) else None;
    if found.Some? then found
    else if |tabs| == 0 then None
    else Some(tabs[0].key)
  }

  /** `changetab`: remembers the clicked tab and leaves every other entry of
      local storage alone. */
  function ChangeTab(storage: Storage, tabId: string): (r: Storage)
    ensures StorageKey in r && r[StorageKey] == tabId
    ensures forall k :: k in storage && k != StorageKey ==> k in r && r[k] == storage[k]
    ensures forall k :: k in r && k != StorageKey ==> k in storage
  {
    storage[StorageKey := tabId]
  }

  /** Clicking a configured tab makes it the one shown at the next start;
      a key no tab carries falls back to the first tab. */
  lemma ChangeTabThenSelected(tabs: seq<TabConfig>, storage: Storage, k: string)
    requires |tabs| > 0
    ensures HasTab(tabs, k) ==> Selected(tabs, ChangeTab(storage, k)) == Some(k)
    ensures !HasTab(tabs, k) ==> Selected(tabs, ChangeTab(storage, k)) == Some(tabs[0].key)
  {
  }

  /** Remembering the tab that is shown changes nothing about what is shown. */
  lemma SelectedIsStable(tabs: seq<TabConfig>, storage: Storage)
    requires |tabs| > 0
    ensures Selected(tabs, ChangeTab(storage, Selected(tabs, storage).value)) == Selected(tabs, storage)
  {
  }

  /** With nothing remembered, or a key no longer configured, the rain tab
      opens; a remembered temperature tab reopens. */
  lemma GraphTabsStartUp(storage: Storage, k: string)
    ensures StorageKey !in storage ==> Selected(GraphTabs, storage) == Some("rain-level")
    ensures !HasTab(GraphTabs, k) ==> Selected(GraphTabs, map[StorageKey := k]) == Some("rain-level")
    ensures Selected(GraphTabs, map[StorageKey := "wind"]) == Some("rain-level")
    ensures Selected(GraphTabs, map[StorageKey := "temperature"]) == Some("temperature")
  {
    assert GraphTabs[1].key == "temperature";
    assert !HasTab(GraphTabs, "wind") by {
      forall i | 0 <= i < |GraphTabs|
        ensures GraphTabs[i].key != "wind"
      {
        assert GraphTabs[i].key[0] != 'w';
      }
    }
  }
}

=== FILE: interpolation.dfy ===
/** `simpleInterpolation`, the one registered decimation strategy: it keeps
    the elements whose index is a multiple of `ceil(|vals| / maxItem)`. */
module Interpolation {
  import opened Sequences

  // ---------------------------------------------------------------------
  // Ceiling division

  /** `Math.ceil(n / d)` for a positive divisor: the least `c` with `c * d >= n`. */
  function CeilDiv(n: nat, d: nat): (c: nat)
    requires d > 0
    ensures c * d >= n
    ensures c > 0 ==> (c - 1) * d < n
  {
    var q := (n + d - 1) / d;
    var r := (n + d - 1) % d;
    assert n + d - 1 == q * d + r;
    assert (q - 1) * d == q * d - d;
    q
  }

  lemma MulStrictlyMonotonic(a: int, b: int, d: nat)
    requires d > 0 && a < b
    ensures a * d < b * d
  {
    assert b * d - a * d == (b - a) * d;
  }

  /** Any `c` with `c * d >= n` is at least the ceiling. */
  lemma CeilDivLeast(n: nat, d: nat, c: nat)
    requires d > 0 && c * d >= n
    ensures CeilDiv(n, d) <= c
  {
    var c0 := CeilDiv(n, d);
    if c0 > c {
      MulStrictlyMonotonic(c0 - 1, c, d);
    }
  }

  /** The two bounds of the ceiling pin it down. */
  lemma CeilDivUnique(n: nat, d: nat, c: nat)
    requires d > 0 && c * d >= n && (c > 0 ==> (c - 1) * d < n)
    ensures CeilDiv(n, d) == c
  {
    CeilDivLeast(n, d, c);
    var c0 := CeilDiv(n, d);
    if c0 < c - 1 {
      MulStrictlyMonotonic(c0, c - 1, d);
    }
  }

  /** Going from `m` to `m + 1` adds a multiple of `d` below the bound exactly
      when `m` is itself a multiple of `d`. */
  lemma CeilDivStep(m: nat, d: nat)
    requires d > 0
    ensures m % d == 0 ==> CeilDiv(m, d) * d == m && CeilDiv(m + 1, d) == CeilDiv(m, d) + 1
    ensures m % d != 0 ==> CeilDiv(m + 1, d) == CeilDiv(m, d)
  {
    var q := m / d;
    var r := m % d;
    assert m == q * d + r;
    assert (q + 1) * d == q * d + d;
    if r == 0 {
      if q > 0 {
        assert (q - 1) * d == q * d - d;
      }
      CeilDivUnique(m, d, q);
      CeilDivUnique(m + 1, d, q + 1);
    } else {
      CeilDivUnique(m, d, q + 1);
      CeilDivUnique(m + 1, d, q + 1);
    }
  }

  /** Dividing by a positive divisor never yields more than the dividend. */
  lemma CeilDivAtMost(n: nat, d: nat)
    requires d > 0
    ensures CeilDiv(n, d) <= n
  {
    assert n * d == n * (d - 1) + n;
    CeilDivLeast(n, d, n);
  }

  /** Striding by `ceil(n / m)` leaves at most `m` elements. */
  lemma CeilDivOfCeilDiv(n: nat, m: nat)
    requires 0 < m < n
    ensures CeilDiv(n, m) > 0 && CeilDiv(n, CeilDiv(n, m)) <= m
  {
    var s := CeilDiv(n, m);
    assert s * m >= n;
    assert m * s >= n;
    CeilDivLeast(n, s, m);
  }

  // ---------------------------------------------------------------------
  // Systematic subsampling

  /** Reference meaning: `r` holds `vals[0], vals[s], vals[2s], ...`, every
      multiple of `s` below `|vals|`, in that order. */
  ghost predicate IsStrided<T>(r: seq<T>, vals: seq<T>, s: nat)
    requires s > 0
  {
    && |r| == CeilDiv(|vals|, s)
    && forall k :: 0 <= k < |r| ==> k * s < |vals| && r[k] == vals[k * s]
  }

  /** `vals.filter((el, index) => index % s == 0)`: exactly the strided
      elements, in order. */
  function KeepMultiples<T>(vals: seq<T>, s: nat): (r: seq<T>)
    requires s > 0
    ensures IsStrided(r, vals, s)
    decreases |vals|
  {
    if |vals| == 0 then []
    else
      var m := |vals| - 1;
      var rf := KeepMultiples(vals[..m], s);
      StridedSnoc(rf, vals[..m], vals[m], s);
      assert vals[..m] + [vals[m]] == vals;
      rf + (if m % s == 0 then [vals[m]] else [])
  }

  /** One more input element extends a strided selection by that element
      exactly when its index is a multiple of the stride. */
  lemma StridedSnoc<T>(r: seq<T>, front: seq<T>, x: T, s: nat)
    requires s > 0 && IsStrided(r, front, s)
    ensures IsStrided(r + (if |front| % s == 0 then [x] else []), front + [x], s)
  {
    var m := |front|;
    var r' := r + (if m % s == 0 then [x] else []);
    var v := front + [x];
    CeilDivStep(m, s);
    forall k | 0 <= k < |r'|
      ensures k * s < |v| && r'[k] == v[k * s]
    {
      if k < |r| {
        assert r'[k] == r[k];
        assert v[k * s] == front[k * s];
      } else {
        assert k == CeilDiv(m, s) && k * s == m;
      }
    }
  }

  /** `simpleInterpolation(vals, maxItem)`. When the input is already short
      enough it comes back as it is; otherwise the stride is
      `ceil(|vals| / maxItem)`. With `maxItem == 0` the stride is `Infinity`
      in the program, `index % Infinity == index`, so only index 0 survives. */
  function SimpleInterpolation<T>(vals: seq<T>, maxItem: nat): (r: seq<T>)
    ensures |vals| <= maxItem ==> r == vals
    ensures |vals| > maxItem > 0 ==> IsStrided(r, vals, CeilDiv(|vals|, maxItem))
    ensures |vals| > maxItem == 0 ==> |r| == 1 && r[0] == vals[0]
  {
    if |vals| <= maxItem then vals
    else if maxItem == 0 then vals[..1]
    else
      KeepMultiples(vals, CeilDiv(|vals|, maxItem))
  }

  // ---------------------------------------------------------------------
  // Properties

  lemma StridedIsSubsequence<T>(r: seq<T>, vals: seq<T>, s: nat)
    requires s > 0 && IsStrided(r, vals, s)
    ensures IsSubsequence(r, vals)
  {
    var idx := seq(|r|, k => k * s);
    forall k, l | 0 <= k < l < |idx|
      ensures idx[k] < idx[l]
    {
      MulStrictlyMonotonic(k, l, s);
    }
    assert Embeds(r, vals, idx);
  }

  /** The result is drawn from the input in order and starts with the input's
      first element. */
  lemma SimpleInterpolationIsSubsequence<T>(vals: seq<T>, maxItem: nat)
    ensures IsSubsequence(SimpleInterpolation(vals, maxItem), vals)
    ensures |vals| > 0 ==>
      |SimpleInterpolation(vals, maxItem)| > 0 && SimpleInterpolation(vals, maxItem)[0] == vals[0]
  {
    var r := SimpleInterpolation(vals, maxItem);
    if |vals| <= maxItem {
      SubsequenceReflexive(vals);
    } else if maxItem == 0 {
      PrefixIsSubsequence(vals, 1);
    } else {
      var s := CeilDiv(|vals|, maxItem);
      StridedIsSubsequence(r, vals, s);
      assert r[0] == vals[0 * s];
    }
  }

  /** For a positive cap the result never exceeds the cap nor the input, and
      a long input gives exactly `ceil(|vals| / stride)` elements. */
  lemma SimpleInterpolationBounded<T>(vals: seq<T>, maxItem: nat)
    requires maxItem >= 1
    ensures |SimpleInterpolation(vals, maxItem)| <= maxItem
    ensures |SimpleInterpolation(vals, maxItem)| <= |vals|
    ensures |vals| > maxItem ==>
      |SimpleInterpolation(vals, maxItem)| == CeilDiv(|vals|, CeilDiv(|vals|, maxItem))
  {
    if |vals| > maxItem {
      var s := CeilDiv(|vals|, maxItem);
      CeilDivOfCeilDiv(|vals|, maxItem);
      CeilDivAtMost(|vals|, s);
    }
  }

  /** The documented example: 100 elements capped at 20 keep every fifth one. */
  lemma HundredCappedAtTwenty()
    ensures SimpleInterpolation(seq(100, i => i), 20) == seq(20, k => 5 * k)
  {
    var vals := seq(100, i => i);
    assert CeilDiv(100, 20) == 5;
    assert CeilDiv(100, 5) == 20;
    var r := SimpleInterpolation(vals, 20);
    assert forall k :: 0 <= k < 20 ==> r[k] == vals[k * 5] == 5 * k;
  }
}

=== FILE: options.dfy ===
/** The optional value used wherever the program works with `null`,
    `undefined` or a parse that may fail. */
module Options {

  datatype Option<+T> = None | Some(value: T)
}

=== FILE: sequences.dfy ===
/** Order-preserving selection over sequences: the subsequence relation and
    the `Array.prototype.filter` that the pipeline applies again and again. */
module Sequences {

  /** `idx` lists, strictly increasing, the positions of `b` that `a` was taken from. */
  ghost predicate Embeds<T>(a: seq<T>, b: seq<T>, idx: seq<nat>) {
    && |idx| == |a|
    && (forall k :: 0 <= k < |idx| ==> idx[k] < |b| && a[k] == b[idx[k]])
    && (forall k, l :: 0 <= k < l < |idx| ==> idx[k] < idx[l])
  }

  /** `a` is `b` with some elements removed and the rest left in order. */
  ghost predicate IsSubsequence<T>(a: seq<T>, b: seq<T>) {
    exists idx :: Embeds(a, b, idx)
  }

  lemma SubsequenceReflexive<T>(a: seq<T>)
    ensures IsSubsequence(a, a)
  {
    var idx := seq(|a|, k => k);
    assert Embeds(a, a, idx);
  }

  lemma SubsequenceTransitive<T>(a: seq<T>, b: seq<T>, c: seq<T>)
    requires IsSubsequence(a, b) && IsSubsequence(b, c)
    ensures IsSubsequence(a, c)
  {
    var i1 :| Embeds(a, b, i1);
    var i2 :| Embeds(b, c, i2);
    var idx := seq(|a|, k requires 0 <= k < |a| => i2[i1[k]]);
    assert Embeds(a, c, idx);
  }

  /** A strictly increasing index list of length n into m positions needs n <= m. */
  lemma {:induction false} IncreasingIndicesFit(idx: seq<nat>, m: nat)
    requires forall k :: 0 <= k < |idx| ==> idx[k] < m
    requires forall k, l :: 0 <= k < l < |idx| ==> idx[k] < idx[l]
    ensures |idx| <= m
    decreases |idx|
  {
    if |idx| > 0 {
      var last := idx[|idx| - 1];
      var front := idx[..|idx| - 1];
      assert forall k :: 0 <= k < |front| ==> front[k] < last;
      IncreasingIndicesFit(front, last);
    }
  }

  lemma SubsequenceLength<T>(a: seq<T>, b: seq<T>)
    requires IsSubsequence(a, b)
    ensures |a| <= |b|
  {
    var idx :| Embeds(a, b, idx);
    IncreasingIndicesFit(idx, |b|);
  }

  lemma PrefixIsSubsequence<T>(b: seq<T>, n: nat)
    requires n <= |b|
    ensures IsSubsequence(b[..n], b)
  {
    var idx := seq(n, k => k);
    assert Embeds(b[..n], b, idx);
  }

  /** `Array.prototype.filter` with a predicate that cannot fail. */
  function Select<T>(p: T -> bool, s: seq<T>): (r: seq<T>)
    ensures |r| <= |s|
    ensures forall i :: 0 <= i < |r| ==> r[i] in s && p(r[i])
    ensures forall i :: 0 <= i < |s| && p(s[i]) ==> s[i] in r
    decreases |s|
  {
    if |s| == 0 then []
    else
      var front := Select(p, s[..|s| - 1]);
      assert s == s[..|s| - 1] + [s[|s| - 1]];
      if p(s[|s| - 1]) then front + [s[|s| - 1]] else front
  }

  /** An embedding into `front` extends to `front + [x]`, with or without `x`. */
  lemma EmbedsSnoc<T>(a: seq<T>, front: seq<T>, idx: seq<nat>, x: T)
    requires Embeds(a, front, idx)
    ensures Embeds(a, front + [x], idx)
    ensures Embeds(a + [x], front + [x], idx + [|front|])
  {
  }

  lemma {:induction false} SelectIsSubsequence<T>(p: T -> bool, s: seq<T>)
    ensures IsSubsequence(Select(p, s), s)
    decreases |s|
  {
    if |s| == 0 {
      assert Embeds(Select(p, s), s, []);
    } else {
      var n := |s| - 1;
      var front := s[..n];
      SelectIsSubsequence(p, front);
      var idx :| Embeds(Select(p, front), front, idx);
      EmbedsSnoc(Select(p, front), front, idx, s[n]);
      assert front + [s[n]] == s;
    }
  }

  /** Selecting from a sequence extended by one element. */
  lemma SelectSnoc<T>(p: T -> bool, s: seq<T>, x: T)
    ensures Select(p, s + [x]) == Select(p, s) + (if p(x) then [x] else [])
  {
    assert (s + [x])[..|s + [x]| - 1] == s;
  }

  /** Selecting from five elements of which only the middle three pass. */
  lemma SelectMiddleThree<T>(p: T -> bool, a: T, b: T, c: T, d: T, e: T)
    requires !p(a) && p(b) && p(c) && p(d) && !p(e)
    ensures Select(p, [a, b, c, d, e]) == [b, c, d]
  {
    var s1, s2, s3, s4 := [a], [a, b], [a, b, c], [a, b, c, d];
    assert Select(p, s1) == [] by {
      assert s1 == [] + [a];
      SelectSnoc(p, [], a);
    }
    assert Select(p, s2) == [b] by {
      assert s2 == s1 + [b];
      SelectSnoc(p, s1, b);
    }
    assert Select(p, s3) == [b, c] by {
      assert s3 == s2 + [c];
      SelectSnoc(p, s2, c);
    }
    assert Select(p, s4) == [b, c, d] by {
      assert s4 == s3 + [d];
      SelectSnoc(p, s3, d);
    }
    assert [a, b, c, d, e] == s4 + [e];
    SelectSnoc(p, s4, e);
  }

  /** Filtering twice keeps exactly what satisfies both predicates. */
  lemma {:induction false} SelectSelect<T>(p: T -> bool, q: T -> bool, s: seq<T>)
    ensures Select(q, Select(p, s)) == Select(x => p(x) && q(x), s)
    decreases |s|
  {
    if |s| > 0 {
      var n := |s| - 1;
      SelectSelect(p, q, s[..n]);
      if p(s[n]) {
        assert Select(p, s)[..|Select(p, s)| - 1] == Select(p, s[..n]);
      }
    }
  }

  /** Selecting with two predicates that agree on `s` gives the same result. */
  lemma {:induction false} SelectCongruent<T>(p: T -> bool, q: T -> bool, s: seq<T>)
    requires forall i :: 0 <= i < |s| ==> p(s[i]) == q(s[i])
    ensures Select(p, s) == Select(q, s)
    decreases |s|
  {
    if |s| > 0 {
      SelectCongruent(p, q, s[..|s| - 1]);
    }
  }

  /** Filtering with a predicate that holds everywhere changes nothing. */
  lemma {:induction false} SelectEverything<T>(p: T -> bool, s: seq<T>)
    requires forall i :: 0 <= i < |s| ==> p(s[i])
    ensures Select(p, s) == s
    decreases |s|
  {
    if |s| > 0 {
      SelectEverything(p, s[..|s| - 1]);
      assert s == s[..|s| - 1] + [s[|s| - 1]];
    }
  }

  /** A slice starting inside `x` and ending where `x` ends. */
  lemma SliceOfJoin<T>(x: seq<T>, y: seq<T>, i: nat)
    requires i <= |x|
    ensures (x + y)[i..|x|] == x[i..]
  {
  }
}

=== FILE: transforms.dfy ===
/** The row transforms a delimited-text provider applies while parsing:
    `bigEndian` reads `YYYYMMDD`, `iso8601` reads `YYYY-MM-DD`. Both keep the
    `value` text as it is and drop every other column. */
module Transforms {
  import opened Options
  import opened Calendar

  /** A raw record: the `date` and `value` columns as text, plus any other
      columns the row has. */
  datatype Row = Row(date: string, value: string, extra: map<string, string>)

  /** What a transform returns: a date and the value text, and nothing else. */
  datatype Sample<D> = Sample(date: D, value: string)

  /** `bigEndian`: the date read as `yyyyMMdd`, the value passed through.
      A date text that is not a valid basic calendar date gives `None`, and so
      does year 0000, which the `yyyy` pattern of date-fns refuses. */
  function BigEndian(row: Row): (r: Option<Sample<Date>>)
    ensures r.Some? <==> ParseBasic(row.date).Some? && ParseBasic(row.date).value.year >= 1
    ensures r.Some? ==> r.value.value == row.value
    ensures r.Some? ==> ValidDate(r.value.date) && r.value.date.year >= 1
                        && FormatBasic(r.value.date) == row.date
  {
    match ParseBasic(row.date)
    case None => None
    case Some(d) =>
      if d.year == 0 then None
      else
        FormatParseBasic(row.date);
        Some(Sample(d, row.value))
  }

  /** Every valid date from year 1 on, written in basic format, is read back
      by `bigEndian`; year 0000 is refused. */
  lemma BigEndianReadsEveryDate(d: Date, value: string, extra: map<string, string>)
    requires ValidDate(d)
    ensures BigEndian(Row(FormatBasic(d), value, extra))
         == if d.year >= 1 then Some(Sample(d, value)) else None
  {
    ParseFormatBasic(d);
  }

  /** `iso8601`: the date read as `YYYY-MM-DD`, the value passed through.
      A date text that is not a valid extended calendar date gives `None`. */
  function Iso8601(row: Row): (r: Option<Sample<Date>>)
    ensures r.Some? <==> ParseExtended(row.date).Some?
    ensures r.Some? ==> r.value.value == row.value
    ensures r.Some? ==> ValidDate(r.value.date) && FormatExtended(r.value.date) == row.date
  {
    match ParseExtended(row.date)
    case None => None
    case Some(d) =>
      FormatParseExtended(row.date);
      Some(Sample(d, row.value))
  }

  lemma Iso8601ReadsEveryDate(d: Date, value: string, extra: map<string, string>)
    requires ValidDate(d)
    ensures Iso8601(Row(FormatExtended(d), value, extra)) == Some(Sample(d, value))
  {
    ParseFormatExtended(d);
  }

  /** On a date text with dashes at positions 4 and 7, `iso8601` decodes what
      `bigEndian` decodes from the same text with the dashes removed, except
      in year 0000, which only `iso8601` accepts. */
  lemma Iso8601IsBigEndianWithoutDashes(row: Row)
    requires |row.date| == 10 && row.date[4] == '-' && row.date[7] == '-'
    ensures var s := row.date;
            var basic := BigEndian(Row(s[..4] + s[5..7] + s[8..], row.value, row.extra));
            basic == if Iso8601(row).Some? && Iso8601(row).value.date.year == 0 then None
                     else Iso8601(row)
  {
    ExtendedIsBasicWithoutDashes(row.date);
  }

  /** Year 0000 is where the two transforms part: `iso8601` reads
      `0000-01-01`, `bigEndian` refuses `00000101`. */
  lemma YearZeroOnlyExtended(value: string, extra: map<string, string>)
    ensures Iso8601(Row("0000-01-01", value, extra)) == Some(Sample(Date(0, 1, 1), value))
    ensures BigEndian(Row("00000101", value, extra)) == None
  {
    DecimalYearZero();
    DecimalTwoDigits(1);
    assert FormatExtended(Date(0, 1, 1)) == "0000-01-01";
    assert FormatBasic(Date(0, 1, 1)) == "00000101";
    Iso8601ReadsEveryDate(Date(0, 1, 1), value, extra);
    BigEndianReadsEveryDate(Date(0, 1, 1), value, extra);
  }

  lemma BigEndianExample()
    ensures BigEndian(Row("19700101", "4", map[])) == Some(Sample(Date(1970, 1, 1), "4"))
  {
    DecimalYear1970();
    DecimalTwoDigits(1);
    assert FormatBasic(Date(1970, 1, 1)) == "19700101";
    BigEndianReadsEveryDate(Date(1970, 1, 1), "4", map[]);
  }

  lemma Iso8601Example()
    ensures Iso8601(Row("1970-02-01", "0", map[])) == Some(Sample(Date(1970, 2, 1), "0"))
  {
    DecimalYear1970();
    DecimalTwoDigits(1);
    DecimalTwoDigits(2);
    assert FormatExtended(Date(1970, 2, 1)) == "1970-02-01";
    Iso8601ReadsEveryDate(Date(1970, 2, 1), "0", map[]);
  }
}
